=== FILE: README.md ===
# Google Maps search-result extraction, modelled in Dafny

This project models `ParseSearchResults` of the Google Maps scraper
(`gmaps/multiple.go`): the pure extraction engine that turns the decoded
search payload — an untyped nest of arrays and scalars whose meaning is
purely positional — into an ordered list of business `Entry` records.

- `JsonTree` (json_tree.dfy): the decoded tree `Json = Null | Bool | Num | Str | Arr`,
  a reference navigation `Walk`, and the fault-tolerant accessor
  `getNthElementAndCast` as `Descend` plus the coercions `GetString`,
  `GetNumber`, `GetArray` (zero value on any non-array step, out-of-range
  index or type mismatch).
- `Text` (text.dfy): the `strings` functions the extractor uses — `Split` on ':',
  `Join`, `ReplaceAll` of " " (`RemoveAll`) and `TrimPrefix` — with their
  round trips (`JoinSplit`, `SplitJoin`) and removal laws.
- `Numerals` (numerals.dfy): `strconv.ParseUint(s, 16, 64)` as `ParseHex64`,
  `fmt.Sprintf("%d", n)` as `FormatDecimal`, each tied to a reference
  numeral value, and `int(float64)` truncation.
- `Render` (render.dfy): `fmt.Sprintf("%v", v)` on decoded values, used for the
  address join and for `toStringSlice` (`Render.Values`).
- `Gmaps` (gmaps.dfy): the entities (`Entry`, `Address`, `About`, `Option`), the
  positional index map as named constants, the shape checks, the per-record
  field mapping `BuildEntry`, the CID derivation, the About/Option loops and
  the record loop.
- `GmapsProperties` (gmaps_properties.dfy): properties that relate several
  calls or pin down concrete payloads.

Calls into code outside the model are parameters, bundled in
`Gmaps.Externals`: the opening-hours parser (`getHours`), the Open Location
Code encoder (`olc.Encode`) and Go's shortest formatting of a float64 that
is not a plain integer. The model starts from the decoded tree: the input is
an `Option<Json>` in which `None` stands for a JSON syntax error.

Notes on the source's behaviour:

- The CID is derived whenever `DataID` has exactly one ':' and the text after
  it, with at most one leading "0x" dropped, is a non-empty hex numeral below
  2^64. The "0x" is optional: "a:2a" yields "42" just as "a:0x2a" does.
- `ParseSearchResults` returns early in four distinct ways: the payload is
  not JSON, or a JSON document that is neither an array nor null
  (`UnmarshalFailed`); the top-level array is empty, which includes a JSON
  `null` payload, since decoding `null` into a slice succeeds with no
  elements (`EmptyData`); its first element is not a non-empty array
  (`InvalidBusinessList`); or the business container has fewer than two
  elements (`EmptyBusinessList`).
- `%v` prints a float64 in Go's shortest `%g` form. The model spells out
  integral values below 10^6 in magnitude, which print as plain decimal
  numerals, and leaves every other number to `formatFloat`.

## Model

| member | source | states |
|---|---|---|
| JsonTree.Descend | gmaps/multiple.go:40-45 | the getter's descent from an array, index by index, reaches exactly what the reference path navigation reaches, and nothing when a step is not an array or an index is out of range |
| JsonTree.GetString | gmaps/multiple.go:44-45 | the string at the path, or "" when the path is broken or the leaf is not a string |
| JsonTree.GetNumber | gmaps/multiple.go:53-54 | the number at the path, or 0 when the path is broken or the leaf is not a number |
| JsonTree.GetArray | gmaps/multiple.go:27 | the array at the path, or the empty array when the path is broken or the leaf is not an array |
| JsonTree.WalkConcat | gmaps/multiple.go:40-45 | a lookup below the business array is one lookup along the concatenated path, so nested getters compose |
| JsonTree.GetThroughElement | gmaps/multiple.go:116-119 | a lookup through index k sees only element k, whatever else the array holds |
| JsonTree.OutOfRangeIsZero | gmaps/multiple.go:44-89 | an index past the end yields the zero value of every target type |
| Gmaps.Unmarshal | gmaps/multiple.go:13-16 | decoding into a slice succeeds exactly for an array (its elements) or null (no elements); anything else is a decoding failure |
| Gmaps.BusinessList | gmaps/multiple.go:18-30 | succeeds exactly on a well-shaped payload, yielding the container at [0][1]; reports EmptyData exactly for an empty array, InvalidBusinessList exactly when element 0 is not a non-empty array, and EmptyBusinessList exactly when element 0 is a non-empty array whose [1], coerced to an array, has fewer than two elements |
| Gmaps.ParseSearchResults | gmaps/multiple.go:12-136 | fails exactly when the payload is not an array whose [0][1] is an array of at least two elements; otherwise there is one entry per array element of that container after the header, each the mapping of its element, in input order |
| GmapsProperties.ShapeErrors | gmaps/multiple.go:18-30 | failure exactly when data is empty, data[0] is not a non-empty array, or data[0][1] coerced to an array has fewer than 2 elements |
| GmapsProperties.NotAnArrayFails | gmaps/multiple.go:13-16 | a syntax error, or a JSON document that is neither an array nor null, fails at decoding |
| GmapsProperties.ShapeErrorExamples | gmaps/multiple.go:18-30 | `[]` and `null` give EmptyData, `[[]]` gives InvalidBusinessList, a container of one element gives EmptyBusinessList |
| Gmaps.Entries | gmaps/multiple.go:32-38 | the count of entries equals the number of array elements at index 1 and above; the entry of element i sits after the entries of the array elements before it; other elements are skipped |
| GmapsProperties.EntriesSkipNonArrays | gmaps/multiple.go:34-38 | on `[header, b1, "not-an-array", b2]` the loop builds exactly the entries of b1 and b2, in that order |
| GmapsProperties.SkipsNonArrays | gmaps/multiple.go:32-38 | the whole call on a container `[header, b1, "not-an-array", b2]` succeeds with exactly two entries, b1's then b2's |
| Gmaps.BuildEntry | gmaps/multiple.go:40-132 | Category is Categories[0] or "" when there are none; Categories has one entry per raw element at [14][13]; Phone has no space; a CID implies a DataID with exactly one ':'; one About per element at [14][100][1]; every kept option is named; PlusCode encodes the entry's own coordinates at length 10 |
| GmapsProperties.IndexMap | gmaps/multiple.go:44-89 | every scalar field read straight from the record is the value at its index-map path below position 14, coerced to the field's type (ReviewCount truncated), or the zero value |
| GmapsProperties.DerivedFieldMap | gmaps/multiple.go:46-128 | Phone is the string at [14][178][0][0] with its spaces removed; Cid is derived from the entry's DataID; Categories is the element-wise rendering of [14][13]; About is parsed from the array at [14][100][1]; OpenHours is the opening-hours parser applied to the business array at position 14 |
| Gmaps.CompleteAddress | gmaps/multiple.go:60-67 | each structured-address field is the string at its position in [183][1] of the business array, or "" |
| GmapsProperties.CompleteAddressMap | gmaps/multiple.go:60-67 | the structured address reads elements 0, 1, 3, 4, 5, 6 of [183][1] |
| GmapsProperties.MissingBusinessIsZero | gmaps/multiple.go:40-132 | with no array at position 14, every field read from the record is its zero value; OpenHours and PlusCode are the external functions applied to the empty array and to (0, 0, 10) |
| Render.Values | gmaps/multiple.go:138-145 | one rendering per element, in order: element i of the result is the `%v` rendering of raw element i |
| Render.Value | gmaps/multiple.go:77 | null renders as "<nil>", a boolean as true or false, a string verbatim and an array in brackets; an integral number below 10^6 in magnitude renders as a leading '-' exactly when negative, then a decimal numeral with no leading zero (other than "0" itself) that reads back as its magnitude; any other number is the float formatter's text |
| Render.FormatInt | gmaps/multiple.go:77 | a signed decimal numeral: '-' exactly for a negative value, then digits with no leading zero (other than "0" itself) that read back as its magnitude |
| GmapsProperties.AddressJoin | gmaps/multiple.go:58-81 | Address is the renderings of the parts at position 2 joined with ", ": "" for no parts, and for n >= 1 parts exactly their lengths plus n - 1 separators |
| GmapsProperties.AddressExample | gmaps/multiple.go:69-81 | `["12 Main St", "Springfield", 62704]` gives "12 Main St, Springfield, 62704" |
| GmapsProperties.ExamplePartsRender | gmaps/multiple.go:77 | the example parts render as "12 Main St", "Springfield", "62704" |
| Text.JoinSnoc | gmaps/multiple.go:72-78 | each further part adds one separator and the part, as the builder loop writes them |
| Text.Join | gmaps/multiple.go:69-81 | no parts join to ""; a join of n >= 1 parts is as long as the parts plus n - 1 separators |
| Text.RemoveAll | gmaps/multiple.go:85 | the result has no space, is shorter by the number of spaces, and keeps every other character |
| Text.RemoveAllConcat | gmaps/multiple.go:85 | removal distributes over concatenation, so the kept characters keep their order |
| Text.RemoveAllIdempotent | gmaps/multiple.go:85 | removing spaces twice is removing them once |
| GmapsProperties.PhoneIdempotent | gmaps/multiple.go:85 | removing spaces from Phone leaves it unchanged |
| Text.Split | gmaps/multiple.go:93 | one more part than separators, and no part contains the separator |
| Text.JoinSplit | gmaps/multiple.go:93 | joining the parts of a split with the separator restores the text |
| Text.SplitJoin | gmaps/multiple.go:93 | splitting a join of separator-free parts restores the parts |
| Text.TrimPrefix | gmaps/multiple.go:96 | the result is a suffix of the input; it differs from the input exactly when the input starts with the non-empty prefix, and then it is the input less exactly that prefix |
| Numerals.ParseHex64 | gmaps/multiple.go:97 | succeeds exactly on a non-empty hex numeral whose value is below 2^64, with that value |
| Numerals.ParseHexFrom | gmaps/multiple.go:97 | the digit loop with overflow check agrees with the numeral's value from any consistent intermediate state |
| Numerals.FormatDecimal | gmaps/multiple.go:98 | a non-empty decimal numeral with no leading zero |
| Numerals.DecimalRoundTrip | gmaps/multiple.go:98 | the decimal rendering reads back as the same value |
| Numerals.ParseHexRoundTrip | gmaps/multiple.go:96-98 | every 64-bit value written in hex parses back to itself |
| Numerals.TruncateToInt | gmaps/multiple.go:54 | the integer part toward zero: within 1 of the input, never beyond it |
| Gmaps.DeriveCid | gmaps/multiple.go:91-101 | a non-empty CID comes only from a DataID with exactly one ':' and is a canonical decimal numeral |
| GmapsProperties.CidOfTwoParts | gmaps/multiple.go:92-101 | for `p:q` with no other ':', a CID exists exactly when q less one leading "0x" is a non-empty hex numeral below 2^64, and it reads back as that value |
| GmapsProperties.CidRoundTrip | gmaps/multiple.go:91-101 | `<prefix>:0x<hex of n>` yields n in decimal for every n below 2^64 |
| GmapsProperties.CidExample | gmaps/multiple.go:91-101 | "0x0:0x2a" gives "42" |
| GmapsProperties.CidWrongColonCount | gmaps/multiple.go:93-94 | "abc" and "a:b:c" give no CID |
| GmapsProperties.CidDoublePrefix | gmaps/multiple.go:96-97 | only one "0x" is dropped: "0x0:0x0x2a" gives no CID |
| GmapsProperties.CidEmptyHex | gmaps/multiple.go:96-97 | "0x0:0x" gives no CID |
| Gmaps.OptionAt | gmaps/multiple.go:117-120 | an option is enabled exactly when the leaf at [k][2][1][0][0] is the number 1; its name is the string at [k][1] or "" |
| Gmaps.Candidates | gmaps/multiple.go:116-120 | one candidate option per element of the options array, each the option read from that element, in order |
| Gmaps.KeepNamed | gmaps/multiple.go:116-125 | exactly the named candidates are kept, in input order, and every kept option is named |
| Gmaps.ParseOptions | gmaps/multiple.go:114-125 | the options of an About element are its named options, in order |
| Gmaps.AboutAt | gmaps/multiple.go:108-114 | the About of element j has the strings at [j][0] and [j][1] as id and name, and the named options of the array at [j][2] |
| Gmaps.ParseAbout | gmaps/multiple.go:105-128 | one About per element of [100][1], the About at position j read from element j, a non-array element giving an empty About, and every option named |
| GmapsProperties.UnnamedOptionsDropped | gmaps/multiple.go:116-125 | options that all lack a name leave the option list empty |
| GmapsProperties.AboutKeptWithoutOptions | gmaps/multiple.go:107-128 | an About whose options are all unnamed is still present, with no options |

## Left out

- JSON text decoding: the model starts from the decoded tree; a syntax error is the input `None`, and number literals beyond float64 range are not modelled.
- JSON objects: the decoded tree has no object case; `encoding/json` would produce maps for them, which every coercion here treats as a type mismatch.
- The opening-hours parser `getHours` and the Open Location Code encoder `olc.Encode` are not part of this model; they are opaque function parameters.
- Floating point: numbers are exact reals. float64 rounding, negative zero, NaN and `int(float64)` of values outside the 64-bit range are not modelled, and `%v` of a number other than an integral one below 10^6 in magnitude is the opaque `formatFloat`.
- Error messages: each early return is one `ParseError` constructor; the message texts and the wrapped decoder error are not modelled.
- Pointers: `[]*Entry` is a sequence of `Entry` values; aliasing plays no part.
- The `Entry`, `Address`, `About` and `Option` struct declarations are not part of this model; the datatypes hold exactly the fields `gmaps/multiple.go` sets.
- Strings are sequences of characters, not bytes; space removal and splitting on ':' agree with Go's byte-wise behaviour because these ASCII characters never occur inside a multi-byte UTF-8 sequence.

=== FILE: gmaps.dfy ===
/**
 * `ParseSearchResults`: the extraction engine that turns the decoded search
 * payload into one `Entry` per business listing. Every field is read through
 * the zero-value accessor at a fixed position of the listing's positional
 * record; only the payload's top-level shape can make the call fail.
 */
module Gmaps {
  import W = Wrappers
  import opened JsonTree
  import opened Text
  import opened Numerals
  import Render

  /** The structured address of a listing. */
  datatype Address = Address(
    borough: string, street: string, city: string,
    postalCode: string, state: string, country: string)

  /** One attribute flag of an About category, e.g. "Wheelchair-accessible entrance". */
  datatype Option = Option(name: string, enabled: bool)

  /** The filter the option loop applies: the name is not "". */
  predicate Named(o: Option)
  {
    |o.name| > 0
  }

  /** One attribute category of a listing, e.g. "Accessibility". */
  datatype About = About(id: string, name: string, options: seq<Option>)

  /** One business listing; `H` is whatever the opening-hours parser produces. */
  datatype Entry<H> = Entry(
    id: string, title: string,
    categories: seq<string>, category: string,
    webSite: string,
    reviewRating: real, reviewCount: int, reviewsLink: string,
    address: string, completeAddress: Address,
    latitude: real, longtitude: real,
    phone: string, openHours: H,
    status: string, timezone: string,
    dataId: string, cid: string,
    about: seq<About>,
    plusCode: string)

  /**
   * The collaborators whose definitions lie outside this model: the
   * opening-hours parser (`getHours`), the Open Location Code encoder
   * (`olc.Encode`) and Go's shortest formatting of a non-plain float64.
   */
  datatype Externals<H> = Externals(
    openHours: seq<Json> -> H,
    plusCode: (real, real, nat) -> string,
    formatFloat: real -> string)

  /** The four ways the call fails, one per early return of the source. */
  datatype ParseError =
    | UnmarshalFailed      // the payload is not JSON, or JSON that is neither an array nor null
    | EmptyData            // the top-level array is empty
    | InvalidBusinessList  // its first element is not a non-empty array
    | EmptyBusinessList    // the business container holds fewer than two elements

  // The positional index map. Paths below the listing record are relative to
  // the business array found at `BusinessIndex` of each container element.
  const BusinessIndex: nat := 14
  const IdPath: seq<nat> := [0]
  const AddressPartsPath: seq<nat> := [2]
  const ReviewsLinkPath: seq<nat> := [4, 3, 0]
  const ReviewRatingPath: seq<nat> := [4, 7]
  const ReviewCountPath: seq<nat> := [4, 8]
  const WebSitePath: seq<nat> := [7, 0]
  const LatitudePath: seq<nat> := [9, 2]
  const LongitudePath: seq<nat> := [9, 3]
  const DataIdPath: seq<nat> := [10]
  const TitlePath: seq<nat> := [11]
  const CategoriesPath: seq<nat> := [13]
  const TimezonePath: seq<nat> := [30]
  const StatusPath: seq<nat> := [34, 4, 4]
  const AboutPath: seq<nat> := [100, 1]
  const PhonePath: seq<nat> := [178, 0, 0]
  const CompleteAddressIndex: nat := 183
  const PlusCodeLength: nat := 10

  // Within one About element, and within one option of it.
  const AboutIdPath: seq<nat> := [0]
  const AboutNamePath: seq<nat> := [1]
  const AboutOptionsPath: seq<nat> := [2]
  const OptionNamePath: seq<nat> := [1]
  const OptionFlagPath: seq<nat> := [2, 1, 0, 0]

  /**
   * `json.Unmarshal` into `[]any`, starting from the decoded tree (`None`
   * stands for a syntax error): an array decodes to its elements, `null` to a
   * nil slice, and any other value is a type error.
   */
  function Unmarshal(doc: W.Option<Json>): (r: W.Result<seq<Json>, ParseError>)
    ensures r.Success? <==> doc.Some? && (doc.value.Arr? || doc.value.Null?)
    ensures r.Success? && doc.value.Arr? ==> r.value == doc.value.items
    ensures r.Success? && doc.value.Null? ==> r.value == []
    ensures r.Failure? ==> r.error == UnmarshalFailed
  {
    match doc
    case None => W.Failure(UnmarshalFailed)
    case Some(Arr(data)) => W.Success(data)
    case Some(Null) => W.Success([])
    case Some(_) => W.Failure(UnmarshalFailed)
  }

  /** The business container of a payload: the array at [0][1], or empty when there is none. */
  function Listed(root: Json): seq<Json>
  {
    AsArray(Walk(root, [0, 1]))
  }

  /** A payload the extractor accepts: an array whose element [0][1] is an array of two or more elements. */
  predicate WellShaped(doc: W.Option<Json>)
  {
    doc.Some? && match Walk(doc.value, [0, 1]) case Some(Arr(items)) => |items| >= 2 case _ => false
  }

  /** The top-level shape checks: yield the business container, or the error of the first check that fails. */
  function BusinessList(data: seq<Json>): (r: W.Result<seq<Json>, ParseError>)
    ensures r.Success? <==> WellShaped(W.Some(Arr(data)))
    ensures r.Success? ==> r.value == Listed(Arr(data))
    ensures r.Failure? && r.error == EmptyData <==> |data| == 0
    ensures r.Failure? && r.error == InvalidBusinessList <==> |data| > 0 && (!data[0].Arr? || |data[0].items| == 0)
    ensures r.Failure? && r.error == EmptyBusinessList <==>
      |data| > 0 && data[0].Arr? && |data[0].items| > 0 && |GetArray(data[0].items, [1])| < 2
    ensures r.Failure? ==> r.error != UnmarshalFailed
  {
    if |data| == 0 then W.Failure(EmptyData)
    else match data[0]
      case Arr(container) =>
        if |container| == 0 then W.Failure(InvalidBusinessList)
        else
          var items := GetArray(container, [1]);
          if |items| < 2 then W.Failure(EmptyBusinessList) else W.Success(items)
      case _ => W.Failure(InvalidBusinessList)
  }

  /** The CID: the hex number after the one ':' of `dataId` (one leading "0x" dropped), in decimal; "" otherwise. */
  function DeriveCid(dataId: string): (cid: string)
    ensures cid != "" ==> Count(dataId, ':') == 1
    ensures cid != "" ==> IsDecimalString(cid) && (cid[0] == '0' ==> cid == "0")
  {
    if dataId == "" then ""
    else
      var parts := Split(dataId, ':');
      if |parts| != 2 then ""
      else match ParseHex64(TrimPrefix(parts[1], "0x"))
        case Some(v) => FormatDecimal(v)
        case None => ""
  }

  /**
   * The option the loop builds for index `k` of an About element's options
   * array: enabled exactly when the leaf at [k][2][1][0][0] is the number 1
   * (a `true`, a string "1" or a missing leaf all read as disabled), named by
   * the string at [k][1], or "" when there is none.
   */
  function OptionAt(opts: seq<Json>, k: nat): (o: Option)
    requires k < |opts|
    ensures o.enabled <==> Walk(opts[k], OptionFlagPath) == W.Some(Num(1.0))
    ensures o.name == AsString(Walk(opts[k], OptionNamePath))
  {
    GetThroughElement(opts, k, OptionFlagPath);
    GetThroughElement(opts, k, OptionNamePath);
    Option(
      name := GetString(opts, [k] + OptionNamePath),
      enabled := GetNumber(opts, [k] + OptionFlagPath) == 1.0)
  }

  /** The options the loop builds, one per element of an About element's options array. */
  function Candidates(opts: seq<Json>): (cs: seq<Option>)
    ensures |cs| == |opts|
    ensures forall k :: 0 <= k < |opts| ==> cs[k] == OptionAt(opts, k)
  {
    seq(|opts|, k requires 0 <= k < |opts| => OptionAt(opts, k))
  }

  /** How many of the first `n` candidate options carry a name. */
  function NamedCount(cands: seq<Option>, n: nat): nat
    requires n <= |cands|
  {
    if n == 0 then 0 else NamedCount(cands, n - 1) + (if Named(cands[n - 1]) then 1 else 0)
  }

  /**
   * The option filter over the first `n` candidates: a candidate is kept
   * exactly when its name is non-empty, and kept options stay in input order
   * (the candidate at index `k` lands after the named candidates before it).
   */
  function KeepNamed(cands: seq<Option>, n: nat): (r: seq<Option>)
    requires n <= |cands|
    ensures |r| == NamedCount(cands, n)
    ensures forall i :: 0 <= i < |r| ==> Named(r[i])
    ensures forall k :: 0 <= k < n && Named(cands[k]) ==>
      NamedCount(cands, k) < |r| && r[NamedCount(cands, k)] == cands[k]
  {
    if n == 0 then []
    else
      var prev := KeepNamed(cands, n - 1);
      if Named(cands[n - 1]) then
        prev + [cands[n - 1]]
      else
        prev
  }

  /** The option loop over a whole options array. */
  function ParseOptions(opts: seq<Json>): (r: seq<Option>)
    ensures forall i :: 0 <= i < |r| ==> Named(r[i])
    ensures |r| == NamedCount(Candidates(opts), |opts|)
    ensures forall k :: 0 <= k < |opts| && Named(OptionAt(opts, k)) ==>
      NamedCount(Candidates(opts), k) < |r| && r[NamedCount(Candidates(opts), k)] == OptionAt(opts, k)
  {
    KeepNamed(Candidates(opts), |opts|)
  }

  /**
   * The About record for index `j` of the about array: its id and name are
   * the strings at [j][0] and [j][1], its options those kept from the array
   * at [j][2]; a non-array element gives an empty record.
   */
  function AboutAt(aboutI: seq<Json>, j: nat): (a: About)
    requires j < |aboutI|
    ensures a.id == AsString(Walk(aboutI[j], AboutIdPath))
    ensures a.name == AsString(Walk(aboutI[j], AboutNamePath))
    ensures a.options == ParseOptions(AsArray(Walk(aboutI[j], AboutOptionsPath)))
  {
    var el := GetArray(aboutI, [j]);
    assert Walk(Arr(aboutI), [j]) == W.Some(aboutI[j]);
    assert aboutI[j].Arr? ==> Arr(el) == aboutI[j];
    var opts := GetArray(el, AboutOptionsPath);
    About(
      id := GetString(el, AboutIdPath),
      name := GetString(el, AboutNamePath),
      options := ParseOptions(opts))
  }

  /** Every option of every About record is named. */
  predicate AllOptionsNamed(about: seq<About>)
  {
    forall j, i :: 0 <= j < |about| && 0 <= i < |about[j].options| ==> Named(about[j].options[i])
  }

  /** The About loop: one record per element, whether or not it is an array or keeps any option. */
  function ParseAbout(aboutI: seq<Json>): (r: seq<About>)
    ensures |r| == |aboutI|
    ensures AllOptionsNamed(r)
    ensures forall j :: 0 <= j < |aboutI| ==> r[j] == AboutAt(aboutI, j)
    ensures forall j :: 0 <= j < |aboutI| && !aboutI[j].Arr? ==> r[j] == About("", "", [])
  {
    seq(|aboutI|, j requires 0 <= j < |aboutI| => AboutAt(aboutI, j))
  }

  /** The structured address read from position 183 of the business array. */
  function CompleteAddress(business: seq<Json>): (a: Address)
    ensures a.borough == AsString(Walk(Arr(business), [CompleteAddressIndex, 1, 0]))
    ensures a.street == AsString(Walk(Arr(business), [CompleteAddressIndex, 1, 1]))
    ensures a.city == AsString(Walk(Arr(business), [CompleteAddressIndex, 1, 3]))
    ensures a.postalCode == AsString(Walk(Arr(business), [CompleteAddressIndex, 1, 4]))
    ensures a.state == AsString(Walk(Arr(business), [CompleteAddressIndex, 1, 5]))
    ensures a.country == AsString(Walk(Arr(business), [CompleteAddressIndex, 1, 6]))
  {
    Address(
      borough := GetString(business, [CompleteAddressIndex, 1, 0]),
      street := GetString(business, [CompleteAddressIndex, 1, 1]),
      city := GetString(business, [CompleteAddressIndex, 1, 3]),
      postalCode := GetString(business, [CompleteAddressIndex, 1, 4]),
      state := GetString(business, [CompleteAddressIndex, 1, 5]),
      country := GetString(business, [CompleteAddressIndex, 1, 6]))
  }

  /** The field mapping of one container element `record` into an `Entry`. */
  function BuildEntry<H>(record: seq<Json>, ext: Externals<H>): (e: Entry<H>)
    ensures e.category == (if |e.categories| > 0 then e.categories[0] else "")
    ensures |e.categories| == |AsArray(Walk(Arr(record), [BusinessIndex] + CategoriesPath))|
    ensures ' ' !in e.phone
    ensures e.cid != "" ==> e.dataId != "" && Count(e.dataId, ':') == 1
    ensures |e.about| == |AsArray(Walk(Arr(record), [BusinessIndex] + AboutPath))|
    ensures AllOptionsNamed(e.about)
    ensures e.plusCode == ext.plusCode(e.latitude, e.longtitude, PlusCodeLength)
  {
    var business := GetArray(record, [BusinessIndex]);
    BusinessPaths(record, CategoriesPath);
    BusinessPaths(record, AboutPath);
    var categories := Render.Values(GetArray(business, CategoriesPath), ext.formatFloat);
    var latitude := GetNumber(business, LatitudePath);
    var longitude := GetNumber(business, LongitudePath);
    var dataId := GetString(business, DataIdPath);
    Entry(
      id := GetString(business, IdPath),
      title := GetString(business, TitlePath),
      categories := categories,
      category := if |categories| > 0 then categories[0] else "",
      webSite := GetString(business, WebSitePath),
      reviewRating := GetNumber(business, ReviewRatingPath),
      reviewCount := TruncateToInt(GetNumber(business, ReviewCountPath)),
      reviewsLink := GetString(business, ReviewsLinkPath),
      address := Join(Render.Values(GetArray(business, AddressPartsPath), ext.formatFloat), ", "),
      completeAddress := CompleteAddress(business),
      latitude := latitude,
      longtitude := longitude,
      phone := RemoveAll(GetString(business, PhonePath), ' '),
      openHours := ext.openHours(business),
      status := GetString(business, StatusPath),
      timezone := GetString(business, TimezonePath),
      dataId := dataId,
      cid := DeriveCid(dataId),
      about := ParseAbout(GetArray(business, AboutPath)),
      plusCode := ext.plusCode(latitude, longitude, PlusCodeLength))
  }

  /** Reading below the business array is reading below position 14 of the record. */
  lemma BusinessPaths(record: seq<Json>, path: seq<nat>)
    requires |path| > 0
    ensures Walk(Arr(GetArray(record, [BusinessIndex])), path) == Walk(Arr(record), [BusinessIndex] + path)
  {
  }

  /** How many of `items[1..n]` are arrays, i.e. become entries. */
  function ArrayCount(items: seq<Json>, n: nat): nat
    requires 1 <= n <= |items|
  {
    if n == 1 then 0 else ArrayCount(items, n - 1) + (if items[n - 1].Arr? then 1 else 0)
  }

  /**
   * The record loop over `items[1..n]` (index 0 is a header): one entry per
   * array element, built by `build` and kept in input order; any other
   * element is skipped.
   */
  function Entries<E>(items: seq<Json>, n: nat, build: seq<Json> -> E): (r: seq<E>)
    requires 1 <= n <= |items|
    ensures |r| == ArrayCount(items, n)
    ensures forall i :: 1 <= i < n && items[i].Arr? ==>
      ArrayCount(items, i) < |r| && r[ArrayCount(items, i)] == build(items[i].items)
  {
    if n == 1 then []
    else
      var prev := Entries(items, n - 1, build);
      match items[n - 1]
      case Arr(record) => prev + [build(record)]
      case _ => prev
  }

  /**
   * `ParseSearchResults`: fails, with no entries, exactly when the payload is
   * not well shaped; otherwise yields one entry per array element of the
   * business container after its header, in order.
   */
  function ParseSearchResults<H>(doc: W.Option<Json>, ext: Externals<H>): (r: W.Result<seq<Entry<H>>, ParseError>)
    ensures r.Failure? <==> !WellShaped(doc)
    ensures r.Success? ==> var items := Listed(doc.value);
      && |r.value| == ArrayCount(items, |items|)
      && forall i :: 1 <= i < |items| && items[i].Arr? ==>
           ArrayCount(items, i) < |r.value| && r.value[ArrayCount(items, i)] == BuildEntry(items[i].items, ext)
  {
    match Unmarshal(doc)
    case Failure(err) => W.Failure(err)
    case Success(data) =>
      match BusinessList(data)
      case Failure(err) => W.Failure(err)
      case Success(items) => W.Success(Entries(items, |items|, record => BuildEntry(record, ext)))
  }
}

=== FILE: gmaps_properties.dfy ===
/** Properties of the extraction engine that relate several calls, or a call to a concrete payload. */
module GmapsProperties {
  import W = Wrappers
  import opened JsonTree
  import opened Text
  import opened Numerals
  import Render
  import opened Gmaps

  /**
   * The shape checks, stated on the decoded array: the call fails exactly when
   * the array is empty, its first element is not a non-empty array, or that
   * element's index 1, coerced to an array, has fewer than two elements.
   */
  lemma ShapeErrors<H>(data: seq<Json>, ext: Externals<H>)
    ensures ParseSearchResults(W.Some(Arr(data)), ext).Failure? <==>
      (|data| == 0 || !data[0].Arr? || |data[0].items| == 0 || |GetArray(data[0].items, [1])| < 2)
  {
  }

  /** Input that is not JSON, or a JSON document that is neither an array nor null, fails at decoding. */
  lemma NotAnArrayFails<H>(doc: W.Option<Json>, ext: Externals<H>)
    requires doc.None? || !(doc.value.Arr? || doc.value.Null?)
    ensures ParseSearchResults(doc, ext) == W.Failure(UnmarshalFailed)
  {
  }

  /** `[]`, `[[]]` and `null` are rejected as badly shaped. */
  lemma ShapeErrorExamples<H>(ext: Externals<H>)
    ensures ParseSearchResults(W.Some(Arr([])), ext) == W.Failure(EmptyData)
    ensures ParseSearchResults(W.Some(Null), ext) == W.Failure(EmptyData)
    ensures ParseSearchResults(W.Some(Arr([Arr([])])), ext) == W.Failure(InvalidBusinessList)
    ensures ParseSearchResults(W.Some(Arr([Arr([Null, Arr([Null])])])), ext) == W.Failure(EmptyBusinessList)
  {
  }

  /** The record loop on `[header, business1, "not-an-array", business2]`. */
  lemma EntriesSkipNonArrays<E>(header: Json, b1: seq<Json>, b2: seq<Json>, build: seq<Json> -> E)
    ensures Entries([header, Arr(b1), Str("not-an-array"), Arr(b2)], 4, build) == [build(b1), build(b2)]
  {
  }

  /**
   * A container `[header, business1, "not-an-array", business2]` gives
   * exactly two entries, in the order business1, business2.
   */
  lemma SkipsNonArrays<H>(header: Json, b1: seq<Json>, b2: seq<Json>, head: Json, ext: Externals<H>)
    ensures ParseSearchResults(W.Some(Arr([Arr([head, Arr([header, Arr(b1), Str("not-an-array"), Arr(b2)])])])), ext)
      == W.Success([BuildEntry(b1, ext), BuildEntry(b2, ext)])
  {
    var items := [header, Arr(b1), Str("not-an-array"), Arr(b2)];
    var container := [head, Arr(items)];
    assert GetArray(container, [1]) == items;
    assert BusinessList([Arr(container)]) == W.Success(items);
    EntriesSkipNonArrays(header, b1, b2, record => BuildEntry(record, ext));
  }

  /** A record with nothing at position 14 yields every field's zero value. */
  lemma MissingBusinessIsZero<H>(record: seq<Json>, ext: Externals<H>)
    requires |record| <= BusinessIndex || !record[BusinessIndex].Arr?
    ensures BuildEntry(record, ext) == Entry(
      id := "", title := "", categories := [], category := "", webSite := "",
      reviewRating := 0.0, reviewCount := 0, reviewsLink := "",
      address := "", completeAddress := Address("", "", "", "", "", ""),
      latitude := 0.0, longtitude := 0.0, phone := "", openHours := ext.openHours([]),
      status := "", timezone := "", dataId := "", cid := "", about := [],
      plusCode := ext.plusCode(0.0, 0.0, PlusCodeLength))
  {
  }

  /** The value at the index-map position `path` below position 14 of a container element. */
  function Field(record: seq<Json>, path: seq<nat>): W.Option<Json>
  {
    Walk(Arr(record), [BusinessIndex] + path)
  }

  /**
   * The index map: each scalar field of an entry is the value found by
   * following position 14 and then the field's path from the container
   * element, coerced to the field's type, or that type's zero value when
   * there is none.
   */
  lemma IndexMap<H>(record: seq<Json>, ext: Externals<H>)
    ensures var e := BuildEntry(record, ext);
      && e.id == AsString(Field(record, IdPath))
      && e.title == AsString(Field(record, TitlePath))
      && e.webSite == AsString(Field(record, WebSitePath))
      && e.reviewRating == AsNumber(Field(record, ReviewRatingPath))
      && e.reviewCount == TruncateToInt(AsNumber(Field(record, ReviewCountPath)))
      && e.reviewsLink == AsString(Field(record, ReviewsLinkPath))
      && e.latitude == AsNumber(Field(record, LatitudePath))
      && e.longtitude == AsNumber(Field(record, LongitudePath))
      && e.status == AsString(Field(record, StatusPath))
      && e.timezone == AsString(Field(record, TimezonePath))
      && e.dataId == AsString(Field(record, DataIdPath))
  {
    BusinessPaths(record, IdPath);
    BusinessPaths(record, TitlePath);
    BusinessPaths(record, WebSitePath);
    BusinessPaths(record, ReviewRatingPath);
    BusinessPaths(record, ReviewCountPath);
    BusinessPaths(record, ReviewsLinkPath);
    BusinessPaths(record, LatitudePath);
    BusinessPaths(record, LongitudePath);
    BusinessPaths(record, StatusPath);
    BusinessPaths(record, TimezonePath);
    BusinessPaths(record, DataIdPath);
  }

  /**
   * The derived fields: Phone is the string at [178][0][0] with its spaces
   * removed, the CID is derived from the entry's own DataID, Categories is the
   * element-wise rendering of the array at [13], and About is parsed from the
   * array at [100][1] (all below position 14); OpenHours is the opening-hours
   * parser applied to the business array at position 14 itself.
   */
  lemma DerivedFieldMap<H>(record: seq<Json>, ext: Externals<H>)
    ensures var e := BuildEntry(record, ext);
      && e.phone == RemoveAll(AsString(Field(record, PhonePath)), ' ')
      && e.cid == DeriveCid(e.dataId)
      && e.categories == Render.Values(AsArray(Field(record, CategoriesPath)), ext.formatFloat)
      && e.about == ParseAbout(AsArray(Field(record, AboutPath)))
      && e.openHours == ext.openHours(AsArray(Walk(Arr(record), [BusinessIndex])))
  {
    BusinessPaths(record, PhonePath);
    BusinessPaths(record, CategoriesPath);
    BusinessPaths(record, AboutPath);
  }

  /**
   * The structured address comes from [183][1] of the business array:
   * elements 0, 1, 3, 4, 5 and 6 (element 2 is not read).
   */
  lemma CompleteAddressMap<H>(record: seq<Json>, ext: Externals<H>)
    ensures var a := BuildEntry(record, ext).completeAddress;
      && a.borough == AsString(Field(record, [CompleteAddressIndex, 1, 0]))
      && a.street == AsString(Field(record, [CompleteAddressIndex, 1, 1]))
      && a.city == AsString(Field(record, [CompleteAddressIndex, 1, 3]))
      && a.postalCode == AsString(Field(record, [CompleteAddressIndex, 1, 4]))
      && a.state == AsString(Field(record, [CompleteAddressIndex, 1, 5]))
      && a.country == AsString(Field(record, [CompleteAddressIndex, 1, 6]))
  {
    BusinessPaths(record, [CompleteAddressIndex, 1, 0]);
    BusinessPaths(record, [CompleteAddressIndex, 1, 1]);
    BusinessPaths(record, [CompleteAddressIndex, 1, 3]);
    BusinessPaths(record, [CompleteAddressIndex, 1, 4]);
    BusinessPaths(record, [CompleteAddressIndex, 1, 5]);
    BusinessPaths(record, [CompleteAddressIndex, 1, 6]);
  }

  /** The address parts at position 2 of the business array, as the source reads them. */
  function AddressParts(record: seq<Json>): seq<Json>
  {
    AsArray(Field(record, AddressPartsPath))
  }

  /**
   * `Address` renders each address part and writes ", " between consecutive
   * ones: no parts give "", and n >= 1 parts give their renderings plus
   * exactly n - 1 separators.
   */
  lemma AddressJoin<H>(record: seq<Json>, ext: Externals<H>)
    ensures var parts := Render.Values(AddressParts(record), ext.formatFloat);
      && BuildEntry(record, ext).address == Join(parts, ", ")
      && (|parts| == 0 ==> BuildEntry(record, ext).address == "")
      && (|parts| > 0 ==> |BuildEntry(record, ext).address| == TotalLength(parts) + 2 * (|parts| - 1))
  {
    BusinessPaths(record, AddressPartsPath);
    var parts := Render.Values(AddressParts(record), ext.formatFloat);
    var business := GetArray(record, [BusinessIndex]);
    assert GetArray(business, AddressPartsPath) == AddressParts(record);
    assert BuildEntry(record, ext).address == Join(parts, ", ");
  }

  /** The number 62704 renders as the postal code "62704". */
  lemma PostalCodeRenders(formatFloat: real -> string)
    ensures Render.Value(Num(62704.0), formatFloat) == "62704"
  {
    assert FormatDecimal(62704) == "62704" by {
      assert FormatDecimal(6) == "6";
      assert FormatDecimal(62) == "62";
      assert FormatDecimal(627) == "627";
      assert FormatDecimal(6270) == "6270";
    }
    assert (62704.0).Floor == 62704;
  }

  /** The parts `["12 Main St", "Springfield", 62704]` render element by element. */
  lemma ExamplePartsRender(formatFloat: real -> string)
    ensures Render.Values([Str("12 Main St"), Str("Springfield"), Num(62704.0)], formatFloat)
      == ["12 Main St", "Springfield", "62704"]
  {
    var parts := [Str("12 Main St"), Str("Springfield"), Num(62704.0)];
    PostalCodeRenders(formatFloat);
    assert Render.Values(parts[2..], formatFloat) == ["62704"];
    assert Render.Values(parts[1..], formatFloat) == ["Springfield", "62704"];
  }

  /** The rendered example parts joined with ", ". */
  lemma ExamplePartsJoin()
    ensures Join(["12 Main St", "Springfield", "62704"], ", ") == "12 Main St, Springfield, 62704"
  {
  }

  /** `["12 Main St", "Springfield", 62704]` renders as "12 Main St, Springfield, 62704". */
  lemma AddressExample(formatFloat: real -> string)
    ensures Join(Render.Values([Str("12 Main St"), Str("Springfield"), Num(62704.0)], formatFloat), ", ")
      == "12 Main St, Springfield, 62704"
  {
    ExamplePartsRender(formatFloat);
    ExamplePartsJoin();
  }

  /** The phone number is left unchanged by removing spaces once more. */
  lemma PhoneIdempotent<H>(record: seq<Json>, ext: Externals<H>)
    ensures RemoveAll(BuildEntry(record, ext).phone, ' ') == BuildEntry(record, ext).phone
  {
    RemoveAllAbsent(BuildEntry(record, ext).phone, ' ');
  }

  /**
   * A `DataID` with exactly one ':' yields a CID exactly when the text after
   * it, less one leading "0x", is a non-empty hex numeral below 2^64, and the
   * CID then reads back as that numeral's value.
   */
  lemma CidOfTwoParts(prefix: string, rest: string)
    requires ':' !in prefix && ':' !in rest
    ensures var hex := TrimPrefix(rest, "0x");
      && (DeriveCid(prefix + ":" + rest) != "" <==> |hex| > 0 && IsHexString(hex) && HexValue(hex) < Uint64Limit)
      && (DeriveCid(prefix + ":" + rest) != "" ==> DecimalValue(DeriveCid(prefix + ":" + rest)) == HexValue(hex))
  {
    assert Join([prefix, rest], [':']) == prefix + ":" + rest;
    SplitJoin([prefix, rest], ':');
    var hex := TrimPrefix(rest, "0x");
    if |hex| > 0 && IsHexString(hex) && HexValue(hex) < Uint64Limit {
      DecimalRoundTrip(HexValue(hex));
    }
  }

  /** The hex-to-decimal round trip: a 64-bit value written as `<prefix>:0x<hex>` comes back in decimal. */
  lemma CidRoundTrip(prefix: string, n: nat)
    requires ':' !in prefix && n < Uint64Limit
    ensures DeriveCid(prefix + ":0x" + FormatHex(n)) == FormatDecimal(n)
  {
    var hex := FormatHex(n);
    assert ':' !in hex by {
      forall i | 0 <= i < |hex| ensures hex[i] != ':' {
        assert IsHexDigit(hex[i]);
      }
    }
    var rest := "0x" + hex;
    assert prefix + ":0x" + hex == prefix + ":" + rest;
    assert Join([prefix, rest], [':']) == prefix + ":" + rest;
    SplitJoin([prefix, rest], ':');
    assert TrimPrefix(rest, "0x") == hex;
    ParseHexRoundTrip(n);
  }

  /** "0x0:0x2a" gives "42". */
  lemma CidExample()
    ensures DeriveCid("0x0:0x2a") == "42"
  {
    assert FormatHex(42) == "2a" by {
      assert FormatHex(2) == "2";
    }
    assert "0x0:0x2a" == "0x0" + ":0x" + FormatHex(42);
    CidRoundTrip("0x0", 42);
    assert FormatDecimal(42) == "42" by {
      assert FormatDecimal(4) == "4";
    }
  }

  /** "abc" (no ':') and "a:b:c" (two) give no CID. */
  lemma CidWrongColonCount()
    ensures DeriveCid("abc") == ""
    ensures DeriveCid("a:b:c") == ""
  {
  }

  /** Only one "0x" is stripped: "0x0:0x0x2a" gives no CID. */
  lemma CidDoublePrefix()
    ensures DeriveCid("0x0:0x0x2a") == ""
  {
    assert "0x0" + ":" + "0x0x2a" == "0x0:0x0x2a";
    assert ':' !in "0x0x2a";
    assert TrimPrefix("0x0x2a", "0x") == "0x2a";
    assert !IsHexDigit("0x2a"[1]);
    CidOfTwoParts("0x0", "0x0x2a");
  }

  /** Nothing left after "0x" is no numeral: "0x0:0x" gives no CID. */
  lemma CidEmptyHex()
    ensures DeriveCid("0x0:0x") == ""
  {
  }

  /** An options array none of whose entries is named keeps no option. */
  lemma UnnamedOptionsDropped(opts: seq<Json>)
    requires forall k :: 0 <= k < |opts| ==> !Named(OptionAt(opts, k))
    ensures ParseOptions(opts) == []
  {
    var cands := Candidates(opts);
    NoneNamed(cands, |cands|);
  }

  lemma {:induction false} NoneNamed(cands: seq<Option>, n: nat)
    requires n <= |cands|
    requires forall k :: 0 <= k < |cands| ==> !Named(cands[k])
    ensures NamedCount(cands, n) == 0
  {
    if n > 0 {
      NoneNamed(cands, n - 1);
    }
  }

  /** An About element whose options are all unnamed still produces its About record, with no options. */
  lemma AboutKeptWithoutOptions(aboutI: seq<Json>, j: nat)
    requires j < |aboutI|
    requires var opts := GetArray(GetArray(aboutI, [j]), AboutOptionsPath);
      forall k :: 0 <= k < |opts| ==> !Named(OptionAt(opts, k))
    ensures j < |ParseAbout(aboutI)| && ParseAbout(aboutI)[j].options == []
  {
    UnnamedOptionsDropped(GetArray(GetArray(aboutI, [j]), AboutOptionsPath));
  }
}

=== FILE: json_tree.dfy ===
/**
 * The decoded JSON tree the extractor works on, and the fault-tolerant
 * accessor the source calls `getNthElementAndCast`: descend by index, then
 * coerce the leaf, yielding the target type's zero value whenever a step
 * is not an array, an index is out of range, or the leaf has another type.
 */
module JsonTree {
  import opened Wrappers

  /** An untyped JSON value as `encoding/json` decodes it into `any`. */
  datatype Json = Null | Bool(b: bool) | Num(n: real) | Str(s: string) | Arr(items: seq<Json>)

  /** Reference navigation: the value reached from `v` by following `path`, one index per step. */
  function Walk(v: Json, path: seq<nat>): Option<Json>
    decreases |path|
  {
    if |path| == 0 then Some(v)
    else match v
      case Arr(xs) => if path[0] < |xs| then Walk(xs[path[0]], path[1..]) else None
      case _ => None
  }

  /** Following `p` and then `q` reaches the same value as following `p + q`. */
  lemma {:induction false} WalkConcat(v: Json, p: seq<nat>, q: seq<nat>)
    ensures Walk(v, p + q) == match Walk(v, p) case None => None case Some(w) => Walk(w, q)
    decreases |p|
  {
    if |p| == 0 {
      assert p + q == q;
    } else {
      assert (p + q)[0] == p[0];
      assert (p + q)[1..] == p[1..] + q;
      match v
      case Arr(xs) =>
        if p[0] < |xs| {
          WalkConcat(xs[p[0]], p[1..], q);
        }
      case _ =>
    }
  }

  /**
   * The accessor behaviour the call sites rely on: starting from an array,
   * each index selects an element, and every index but the last must land
   * on a nested array; an out-of-range index or a scalar in the middle of
   * the path yields nothing. Every call site passes at least one index,
   * hence the precondition.
   */
  function Descend(arr: seq<Json>, path: seq<nat>): (r: Option<Json>)
    requires |path| > 0
    ensures r == Walk(Arr(arr), path)
    decreases |path|
  {
    var idx := path[0];
    if idx >= |arr| then None
    else if |path| == 1 then Some(arr[idx])
    else match arr[idx]
      case Arr(next) => Descend(next, path[1..])
      case _ => None
  }

  /** Coercion to `string`: a string leaf passes through, anything else is "". */
  function AsString(leaf: Option<Json>): string
  {
    match leaf
    case Some(Str(s)) => s
    case _ => ""
  }

  /** Coercion to `float64`: a number leaf passes through, anything else is 0. */
  function AsNumber(leaf: Option<Json>): real
  {
    match leaf
    case Some(Num(n)) => n
    case _ => 0.0
  }

  /** Coercion to `[]any`: an array leaf passes through, anything else is empty. */
  function AsArray(leaf: Option<Json>): seq<Json>
  {
    match leaf
    case Some(Arr(xs)) => xs
    case _ => []
  }

  /** `getNthElementAndCast[string](arr, path...)`. */
  function GetString(arr: seq<Json>, path: seq<nat>): (s: string)
    requires |path| > 0
    ensures match Walk(Arr(arr), path) case Some(Str(t)) => s == t case _ => s == ""
  {
    AsString(Descend(arr, path))
  }

  /** `getNthElementAndCast[float64](arr, path...)`. */
  function GetNumber(arr: seq<Json>, path: seq<nat>): (x: real)
    requires |path| > 0
    ensures match Walk(Arr(arr), path) case Some(Num(y)) => x == y case _ => x == 0.0
  {
    AsNumber(Descend(arr, path))
  }

  /** `getNthElementAndCast[[]any](arr, path...)`. */
  function GetArray(arr: seq<Json>, path: seq<nat>): (xs: seq<Json>)
    requires |path| > 0
    ensures match Walk(Arr(arr), path) case Some(Arr(ys)) => xs == ys case _ => xs == []
  {
    AsArray(Descend(arr, path))
  }

  /**
   * Locality of the accessor: a lookup through index `k` of `arr` sees only
   * the element `arr[k]`, so what lies at other positions never matters.
   */
  lemma GetThroughElement(arr: seq<Json>, k: nat, rest: seq<nat>)
    requires k < |arr|
    ensures Walk(Arr(arr), [k] + rest) == Walk(arr[k], rest)
  {
  }

  /** An index past the end of the array yields the zero value of every type. */
  lemma OutOfRangeIsZero(arr: seq<Json>, path: seq<nat>)
    requires |path| > 0 && path[0] >= |arr|
    ensures GetString(arr, path) == "" && GetNumber(arr, path) == 0.0 && GetArray(arr, path) == []
  {
  }
}

=== FILE: numerals.dfy ===
/**
 * Hexadecimal parsing as `strconv.ParseUint(s, 16, 64)` performs it, and
 * decimal rendering as `fmt.Sprintf("%d", n)` performs it for an unsigned
 * value, each with a reference definition of the numeral's value.
 */
module Numerals {
  import opened Wrappers

  /** 2^64: the first value a `uint64` cannot hold. */
  const Uint64Limit: nat := 0x1_0000_0000_0000_0000

  predicate IsHexDigit(c: char)
  {
    '0' <= c <= '9' || 'a' <= c <= 'f' || 'A' <= c <= 'F'
  }

  function HexDigitValue(c: char): (d: nat)
    requires IsHexDigit(c)
    ensures d < 16
  {
    if '0' <= c <= '9' then (c - '0') as nat
    else if 'a' <= c <= 'f' then (c - 'a') as nat + 10
    else (c - 'A') as nat + 10
  }

  predicate IsHexString(s: string)
  {
    forall i :: 0 <= i < |s| ==> IsHexDigit(s[i])
  }

  /** The value of a big-endian base-16 numeral (the empty numeral is 0). */
  function HexValue(s: string): nat
    requires IsHexString(s)
  {
    if |s| == 0 then 0 else HexValue(s[..|s| - 1]) * 16 + HexDigitValue(s[|s| - 1])
  }

  /** A prefix of a numeral never has a larger value than the numeral. */
  lemma {:induction false} HexValuePrefix(s: string, j: nat)
    requires IsHexString(s) && j <= |s|
    ensures IsHexString(s[..j]) && HexValue(s[..j]) <= HexValue(s)
    decreases |s| - j
  {
    if j < |s| {
      var t := s[..|s| - 1];
      assert t[..j] == s[..j];
      HexValuePrefix(t, j);
    } else {
      assert s[..j] == s;
    }
  }

  /** Once the digits read so far overflow 64 bits, the whole numeral does. */
  lemma OverflowPersists(s: string, j: nat)
    requires j <= |s| && IsHexString(s[..j]) && HexValue(s[..j]) >= Uint64Limit
    ensures !(IsHexString(s) && HexValue(s) < Uint64Limit)
  {
    if IsHexString(s) {
      HexValuePrefix(s, j);
    }
  }

  /**
   * `strconv.ParseUint(s, 16, 64)` succeeds exactly for a non-empty numeral
   * of hex digits (no sign, no "0x": the base is given explicitly) whose value
   * fits in 64 bits, and then yields that value.
   */
  function ParseHex64(s: string): (r: Option<nat>)
    ensures r.Some? <==> |s| > 0 && IsHexString(s) && HexValue(s) < Uint64Limit
    ensures r.Some? ==> r.value == HexValue(s)
  {
    if |s| == 0 then None
    else
      assert s[..0] == "";
      ParseHexFrom(s, 0, 0)
  }

  /**
   * The digit loop of `ParseUint`: `acc` is the value of the digits read so
   * far; a non-digit or a step past the 64-bit range ends in failure.
   */
  function ParseHexFrom(s: string, i: nat, acc: nat): (r: Option<nat>)
    requires i <= |s| && IsHexString(s[..i]) && acc == HexValue(s[..i]) && acc < Uint64Limit
    ensures r.Some? <==> IsHexString(s) && HexValue(s) < Uint64Limit
    ensures r.Some? ==> r.value == HexValue(s)
    decreases |s| - i
  {
    if i == |s| then
      assert s[..i] == s;
      Some(acc)
    else if !IsHexDigit(s[i]) then
      None
    else
      var next := acc * 16 + HexDigitValue(s[i]);
      assert s[..i + 1][..i] == s[..i];
      assert IsHexString(s[..i + 1]) && HexValue(s[..i + 1]) == next;
      if next >= Uint64Limit then
        OverflowPersists(s, i + 1);
        None
      else
        ParseHexFrom(s, i + 1, next)
  }

  function DecimalDigit(d: nat): (c: char)
    requires d < 10
    ensures '0' <= c <= '9' && (c - '0') as nat == d
  {
    "0123456789"[d]
  }

  predicate IsDecimalString(s: string)
  {
    forall i :: 0 <= i < |s| ==> '0' <= s[i] <= '9'
  }

  /** The value of a big-endian base-10 numeral. */
  function DecimalValue(s: string): nat
    requires IsDecimalString(s)
  {
    if |s| == 0 then 0 else DecimalValue(s[..|s| - 1]) * 10 + (s[|s| - 1] - '0') as nat
  }

  /** `fmt.Sprintf("%d", n)` for an unsigned `n`: its shortest base-10 numeral. */
  function FormatDecimal(n: nat): (s: string)
    ensures |s| > 0 && IsDecimalString(s)
    ensures s[0] == '0' ==> s == "0"
  {
    if n < 10 then [DecimalDigit(n)] else FormatDecimal(n / 10) + [DecimalDigit(n % 10)]
  }

  /** Decimal rendering is undone by reading the numeral back: no value is lost or changed. */
  lemma {:induction false} DecimalRoundTrip(n: nat)
    ensures DecimalValue(FormatDecimal(n)) == n
  {
    if n >= 10 {
      var s := FormatDecimal(n);
      assert s[..|s| - 1] == FormatDecimal(n / 10);
      DecimalRoundTrip(n / 10);
    }
  }

  /** Lower-case base-16 rendering, used to build DataIDs in the CID round-trip lemma. */
  function FormatHex(n: nat): (s: string)
    ensures |s| > 0 && IsHexString(s)
  {
    if n < 16 then ["0123456789abcdef"[n]] else FormatHex(n / 16) + ["0123456789abcdef"[n % 16]]
  }

  /** Reading a rendered hex numeral gives back its value. */
  lemma {:induction false} HexRoundTrip(n: nat)
    ensures HexValue(FormatHex(n)) == n
  {
    if n >= 16 {
      var s := FormatHex(n);
      assert s[..|s| - 1] == FormatHex(n / 16);
      HexRoundTrip(n / 16);
    }
  }

  /** Every 64-bit value, written in hex, is parsed back to itself. */
  lemma ParseHexRoundTrip(n: nat)
    requires n < Uint64Limit
    ensures ParseHex64(FormatHex(n)) == Some(n)
  {
    HexRoundTrip(n);
  }

  /** `int(x)` for a float64 `x`: truncation toward zero. */
  function TruncateToInt(x: real): (i: int)
    ensures 0.0 <= x ==> i as real <= x < i as real + 1.0
    ensures x < 0.0 ==> i as real - 1.0 < x <= i as real
  {
    if x >= 0.0 then x.Floor else -((-x).Floor)
  }
}

=== FILE: render.dfy ===
/**
 * `fmt.Sprintf("%v", v)` for a decoded JSON value, as the address join and
 * `toStringSlice` use it. Strings print verbatim, booleans as true/false,
 * null as <nil>, arrays as their elements' renderings space-separated in
 * brackets. A float64 prints in Go's shortest %g form, which is plain
 * decimal for an integral value below 10^6 in magnitude; every other number
 * is handed to `formatFloat`, a formatter this model does not define.
 */
module Render {
  import opened JsonTree
  import opened Text
  import opened Numerals

  /** The magnitude from which %v switches an integral float64 to exponent form (1e+06). */
  const ExponentThreshold: real := 1000000.0

  /** An integral value %v prints without exponent or fraction. */
  predicate IsPlainInteger(x: real)
  {
    x.Floor as real == x && -ExponentThreshold < x < ExponentThreshold
  }

  /** `%d` of a signed integer. */
  function FormatInt(i: int): (s: string)
    ensures |s| > 0
    ensures s[0] == '-' <==> i < 0
    ensures i >= 0 ==> IsDecimalString(s) && DecimalValue(s) == i
    ensures i < 0 ==> IsDecimalString(s[1..]) && DecimalValue(s[1..]) == -i
    ensures i >= 0 ==> (s[0] == '0' ==> s == "0")
    ensures i < 0 ==> |s| > 1 && s[1] != '0'
  {
    if i < 0 then
      DecimalRoundTrip(-i);
      var digits := FormatDecimal(-i);
      assert ("-" + digits)[1..] == digits;
      "-" + digits
    else
      DecimalRoundTrip(i);
      FormatDecimal(i)
  }

  /**
   * The `%v` rendering of `v`: a string verbatim, an array in brackets, a
   * plain integer as a signed decimal numeral of its value, and any other
   * number as the float formatter spells it.
   */
  function Value(v: Json, formatFloat: real -> string): (r: string)
    ensures v.Null? ==> r == "<nil>"
    ensures v.Bool? ==> r == (if v.b then "true" else "false")
    ensures v.Str? ==> r == v.s
    ensures v.Arr? ==> |r| >= 2 && r[0] == '[' && r[|r| - 1] == ']'
    ensures v.Num? && IsPlainInteger(v.n) ==> |r| > 0 && (r[0] == '-' <==> v.n < 0.0)
    ensures v.Num? && IsPlainInteger(v.n) && v.n >= 0.0 ==> IsDecimalString(r) && DecimalValue(r) as real == v.n
    ensures v.Num? && IsPlainInteger(v.n) && v.n >= 0.0 ==> (r[0] == '0' ==> r == "0")
    ensures v.Num? && IsPlainInteger(v.n) && v.n < 0.0 ==>
      IsDecimalString(r[1..]) && DecimalValue(r[1..]) as real == -v.n && r[1] != '0'
    ensures v.Num? && !IsPlainInteger(v.n) ==> r == formatFloat(v.n)
    decreases v
  {
    match v
    case Null => "<nil>"
    case Bool(b) => if b then "true" else "false"
    case Num(x) => if IsPlainInteger(x) then FormatInt(x.Floor) else formatFloat(x)
    case Str(s) => s
    case Arr(xs) => "[" + Join(seq(|xs|, i requires 0 <= i < |xs| => Value(xs[i], formatFloat)), " ") + "]"
  }

  /** The renderings of `xs`, element by element. */
  function Values(xs: seq<Json>, formatFloat: real -> string): (r: seq<string>)
    ensures |r| == |xs|
    ensures forall i :: 0 <= i < |xs| ==> r[i] == Value(xs[i], formatFloat)
  {
    if |xs| == 0 then [] else [Value(xs[0], formatFloat)] + Values(xs[1..], formatFloat)
  }
}

=== FILE: text.dfy ===
/**
 * The pieces of Go's `strings` package the extractor relies on, for the
 * one-character patterns it uses: `Split` on ':', `Join` with ", ",
 * `ReplaceAll` of " " by "", and `TrimPrefix` of "0x".
 */
module Text {

  /** Number of occurrences of `c` in `s`. */
  function Count(s: string, c: char): nat
  {
    if |s| == 0 then 0 else (if s[0] == c then 1 else 0) + Count(s[1..], c)
  }

  /** `strings.Split(s, string(sep))`: the maximal pieces between separators, empty pieces kept. */
  function Split(s: string, sep: char): (parts: seq<string>)
    ensures |parts| == Count(s, sep) + 1
    ensures forall i :: 0 <= i < |parts| ==> sep !in parts[i]
  {
    if |s| == 0 then [""]
    else
      var rest := Split(s[1..], sep);
      if s[0] == sep then [""] + rest
      else [[s[0]] + rest[0]] + rest[1..]
  }

  /** Sum of the lengths of `parts`. */
  function TotalLength(parts: seq<string>): nat
  {
    if |parts| == 0 then 0 else |parts[0]| + TotalLength(parts[1..])
  }

  /** `strings.Join(parts, sep)`, equivalently the builder loop that writes `sep` before every part but the first. */
  function Join(parts: seq<string>, sep: string): (r: string)
    ensures |parts| == 0 ==> r == ""
    ensures |parts| > 0 ==> |r| == TotalLength(parts) + |sep| * (|parts| - 1)
  {
    if |parts| == 0 then ""
    else if |parts| == 1 then parts[0]
    else parts[0] + sep + Join(parts[1..], sep)
  }

  /** Appending one more part writes one more separator and the part, as the builder loop does. */
  lemma {:induction false} JoinSnoc(parts: seq<string>, last: string, sep: string)
    requires |parts| > 0
    ensures Join(parts + [last], sep) == Join(parts, sep) + sep + last
    decreases |parts|
  {
    if |parts| == 1 {
      assert parts + [last] == [parts[0], last];
    } else {
      assert (parts + [last])[1..] == parts[1..] + [last];
      JoinSnoc(parts[1..], last, sep);
    }
  }

  /** Joining the pieces of a split with the same separator gives back the original text. */
  lemma {:induction false} JoinSplit(s: string, sep: char)
    ensures Join(Split(s, sep), [sep]) == s
    decreases |s|
  {
    if |s| > 0 {
      var rest := Split(s[1..], sep);
      JoinSplit(s[1..], sep);
      if s[0] == sep {
        assert s == [sep] + s[1..];
      } else if |rest| == 1 {
        assert s == [s[0]] + s[1..];
      } else {
        assert Split(s, sep)[1..] == rest[1..];
        assert s == [s[0]] + s[1..];
      }
    }
  }

  /** Text with no separator in it splits into itself alone. */
  lemma {:induction false} SplitWithoutSeparator(s: string, sep: char)
    requires sep !in s
    ensures Split(s, sep) == [s]
    decreases |s|
  {
    if |s| > 0 {
      assert sep !in s[1..] by {
        forall i | 0 <= i < |s[1..]| ensures s[1..][i] != sep {
          assert s[1..][i] == s[i + 1];
        }
      }
      SplitWithoutSeparator(s[1..], sep);
      assert [s[0]] + s[1..] == s;
    }
  }

  /** A separator right after a separator-free head cuts exactly there. */
  lemma {:induction false} SplitAfterHead(head: string, sep: char, tail: string)
    requires sep !in head
    ensures Split(head + [sep] + tail, sep) == [head] + Split(tail, sep)
    decreases |head|
  {
    var s := head + [sep] + tail;
    if |head| == 0 {
      assert s[1..] == tail;
    } else {
      assert s[1..] == head[1..] + [sep] + tail;
      assert sep !in head[1..] by {
        forall i | 0 <= i < |head[1..]| ensures head[1..][i] != sep {
          assert head[1..][i] == head[i + 1];
        }
      }
      SplitAfterHead(head[1..], sep, tail);
      assert [head[0]] + head[1..] == head;
    }
  }

  /** Splitting a join of separator-free parts gives back exactly those parts. */
  lemma {:induction false} SplitJoin(parts: seq<string>, sep: char)
    requires |parts| > 0
    requires forall i :: 0 <= i < |parts| ==> sep !in parts[i]
    ensures Split(Join(parts, [sep]), sep) == parts
    decreases |parts|
  {
    if |parts| == 1 {
      SplitWithoutSeparator(parts[0], sep);
    } else {
      SplitJoin(parts[1..], sep);
      SplitAfterHead(parts[0], sep, Join(parts[1..], [sep]));
      assert [parts[0]] + parts[1..] == parts;
    }
  }

  /** `strings.ReplaceAll(s, string(c), "")`: every occurrence of `c` dropped, the rest kept in order. */
  function RemoveAll(s: string, c: char): (r: string)
    ensures c !in r
    ensures |r| == |s| - Count(s, c)
    ensures forall x :: x != c ==> (x in r <==> x in s)
  {
    if |s| == 0 then ""
    else (if s[0] == c then "" else [s[0]]) + RemoveAll(s[1..], c)
  }

  /** Removal works piecewise: it commutes with concatenation, so it keeps the order of what stays. */
  lemma {:induction false} RemoveAllConcat(a: string, b: string, c: char)
    ensures RemoveAll(a + b, c) == RemoveAll(a, c) + RemoveAll(b, c)
    decreases |a|
  {
    if |a| == 0 {
      assert a + b == b;
    } else {
      assert (a + b)[1..] == a[1..] + b;
      RemoveAllConcat(a[1..], b, c);
    }
  }

  /** Text without `c` is left exactly as it is. */
  lemma {:induction false} RemoveAllAbsent(s: string, c: char)
    requires c !in s
    ensures RemoveAll(s, c) == s
    decreases |s|
  {
    if |s| > 0 {
      assert c !in s[1..] by {
        forall i | 0 <= i < |s[1..]| ensures s[1..][i] != c {
          assert s[1..][i] == s[i + 1];
        }
      }
      RemoveAllAbsent(s[1..], c);
      assert [s[0]] + s[1..] == s;
    }
  }

  /** Removing twice is removing once. */
  lemma RemoveAllIdempotent(s: string, c: char)
    ensures RemoveAll(RemoveAll(s, c), c) == RemoveAll(s, c)
  {
    RemoveAllAbsent(RemoveAll(s, c), c);
  }

  /** `strings.TrimPrefix(s, prefix)`: drops one leading copy of `prefix`, if present. */
  function TrimPrefix(s: string, prefix: string): (r: string)
    ensures |r| <= |s| && r == s[|s| - |r|..]
    ensures r != s <==> (|prefix| > 0 && |prefix| <= |s| && s[..|prefix|] == prefix)
    ensures r != s ==> r == s[|prefix|..]
  {
    if |prefix| <= |s| && s[..|prefix|] == prefix then s[|prefix|..] else s
  }
}

=== FILE: wrappers.dfy ===
/** Failure-carrying wrappers shared by the other modules. */
module Wrappers {

  /** A value that may be absent. */
  datatype Option<T> = None | Some(value: T)

  /** The outcome of an operation that can fail with an error of type `E`. */
  datatype Result<R, E> = Success(value: R) | Failure(error: E)
}
